=== FILE: README.md ===
# AKMediaViewer controller state machine in Dafny

This project models the control logic of `AKMediaViewerController`. That is
the UIKit view controller that shows one image or video inside a focusable
viewer. Under its view calls sits a small sequential state machine, which is
what the model covers:

- **Observer bookkeeping.** The `observersAdded` flag is kept next to the
  key-value observations that are actually registered. These are held as a
  multiset of (player identity, key path) pairs. The model covers
  `removeObservers`, both halves of `showPlayerWithURL`, `viewWillDisappear`
  and `deinit`.
- **Readiness dispatch.** `observeValue` maps each observed key path to
  commands for the player and the loading indicator. The four key paths are
  `presentationSize`, `playbackLikelyToKeepUp`, `playbackBufferEmpty` and
  `status`. The commands are `Play`, `Pause`, `StartIndicator` and
  `StopIndicator`. `playPLayer` is modelled with it.
- **Accessory overlay.** The model covers visibility (`showAccessoryView`,
  `accessoryViewsVisible`, `handleTap`, `scrollViewDidZoom`), the auto-hide
  timers, pinning to the root view, and the early return of
  `layoutControlView` once the overlay is pinned.
- **Gestures.** For `handleDoubleTap`, the model covers the choice of target
  zoom scale and of the rectangle to scroll to. CGFloat is abstracted as
  `real`.
- **Focus lifecycle.** `focusDidEndWithZoomEnabled` and `defocusWillStart`,
  with `installZoomView` and `uninstallZoomView`.

The state is one immutable record, `ViewerState.Controller`. Every entry
point is a pure function that returns the new state together with the
commands it issued, in order (`Step`). A command is issued only when its
receiver exists, just as the optional chaining on `activityIndicator?` and
`player?` does.

`Viewer.Handle` turns each entry point into an event, and `Viewer.Run`
folds a sequence of events. Events include the main-queue block, a timer
firing, and a change the media framework makes to the player. Properties
over all event sequences are proved against `Run`.

Files:

- `state.dfy`: the data model.
- `observers.dfy`: the observer bookkeeping.
- `readiness.dfy`: readiness dispatch.
- `overlay.dfy`: the accessory overlay and its timers.
- `gestures.dfy`: double-tap zoom.
- `lifecycle.dfy`: media attachment and focus.
- `viewer.dfy`: the event-level state machine and properties over runs.

Some behaviours of the code are easy to miss when reading it. The model
keeps each of them:

- The keep-up notification plays whenever the current item is likely to
  keep up, whatever the player's status. It does not check that playback
  was waiting for the buffer.
- Any status other than ready pauses and restarts the indicator. This
  includes a failed status, so a player that fails shows a spinning
  indicator.
- `addAccessoryViewTimer` does not cancel a pending timer, so two timers
  can be live at once (`ScheduleTwiceLeavesTwoLive`). The older timer, when
  it fires, invalidates the newer one (`OlderTimerCancelsNewer`).
- Focusing with no player schedules no auto-hide timer, so the overlay stays
  visible (`FocusWithoutPlayerNeverAutoHides`).
- The flag and the registry can disagree:
  - With the flag set and no current item, `removeObservers` returns and
    leaves the flag set (`RemoveObserversWithoutItemKeepsFlag`). The old
    item's observations are then never removed (`RunDeferredWithoutItemLeaks`).
  - The player-level `status` observation is never removed when the player
    is replaced, nor when the view disappears. `RunDeferredReplacesObservations`,
    `ViewWillDisappear` and `DeinitLeavesReplacedPlayers` show it stays
    registered.
- `observeValue` ignores which object sent a notification and reads the
  current player. A late notification from a replaced player therefore acts
  on the new one. For this reason `Notify` events carry only a key path.
- Once pinned, the overlay is never re-parented back, not even when the zoom
  view is installed again (`RunKeepsPinned`).
- A double tap or a pinch sets the scroll view's zoom scale. The controller
  is that scroll view's delegate, so `scrollViewDidZoom` runs too: zooming in
  hides the overlay and zooming out shows it (`DoubleTapTogglesOverlay`,
  `Pinched`).
- The code has no explicit playback-state enumeration. The model keeps the
  player's status, its keep-up estimate, and whether the indicator animates.

## Model

| member | source | states |
|---|---|---|
| ViewerState.Initial | AKMediaViewer/AKMediaViewerController.swift:89-95 | After the view loads there is no player and no observation, the flag is clear, the overlay is fully transparent and it is not pinned |
| Observers.RemoveObservers | AKMediaViewer/AKMediaViewerController.swift:102-113 | The flag ends set only if it was set and there was no current item; with the flag set and a current item exactly the three item observations are removed; otherwise the registry is unchanged; nothing else changes |
| Observers.RemoveObserversIdempotent | AKMediaViewer/AKMediaViewerController.swift:102-113 | A second call after any first call changes nothing |
| Observers.RemoveObserversExact | AKMediaViewer/AKMediaViewerController.swift:102-113 | Under the bookkeeping invariant, a removal takes away three observations that were all registered (the registry after, plus the three, is the registry before), and the invariant still holds |
| Observers.RemoveObserversWithoutItemKeepsFlag | AKMediaViewer/AKMediaViewerController.swift:103-106 | With the flag set and the player's current item gone, the early return leaves the flag set and every observation registered |
| Readiness.StartIndicatorIfAny | AKMediaViewer/AKMediaViewerController.swift:366 | StartIndicator is issued exactly when an indicator exists, which then animates; nothing else changes |
| Readiness.StopIndicatorIfAny | AKMediaViewer/AKMediaViewerController.swift:292 | StopIndicator is issued exactly when an indicator exists; afterwards the indicator is not animating; nothing else changes |
| Readiness.PlayPlayer | AKMediaViewer/AKMediaViewerController.swift:291-294 | Issues StopIndicator when an indicator exists, then Play when a player exists; afterwards the indicator is not animating; only the indicator changes |
| Readiness.PauseAndWait | AKMediaViewer/AKMediaViewerController.swift:364-366 | Issues Pause when a player exists, then StartIndicator when an indicator exists; an existing indicator animates afterwards and a missing one stays missing; only the indicator changes |
| Readiness.ObserveValue | AKMediaViewer/AKMediaViewerController.swift:341-378 | A nil key path issues nothing. Keep-up with a likely item issues [StopIndicator if an indicator exists] then Play, whatever the status; an unlikely item or no item issues nothing. Status with no player issues nothing; ready status plays the same way; any other status issues Pause then StartIndicator if an indicator exists. An empty buffer only restarts the indicator. Presentation size and unknown key paths issue nothing. Only the indicator's animation ever changes; an indicator is never created or dropped |
| Readiness.ObserveValueLogsIndicator | AKMediaViewer/AKMediaViewerController.swift:341-378 | After any notification, the indicator animates exactly as the last indicator command issued says, or as before when none was issued |
| Readiness.PlayIssuedIff | AKMediaViewer/AKMediaViewerController.swift:349-367 | Play is issued if and only if the notification is keep-up with a current item likely to keep up, or status while the player is ready |
| Readiness.PauseIssuedIff | AKMediaViewer/AKMediaViewerController.swift:357-367 | Pause is issued if and only if the notification is status while a player exists and is not ready |
| Readiness.NoConflictingCommands | AKMediaViewer/AKMediaViewerController.swift:341-378 | No notification both plays and pauses, and none both starts and stops the indicator |
| Overlay.Visible | AKMediaViewer/AKMediaViewerController.swift:248-250 | The overlay counts as visible exactly when it is fully opaque |
| Overlay.ShowAccessoryView | AKMediaViewer/AKMediaViewerController.swift:238-250 | Afterwards the overlay is visible (opacity exactly 1) exactly when requested. When visibility already matched, nothing changes. Otherwise the opacity becomes exactly 1.0 or 0.0. Pinning is untouched |
| Overlay.ShowAccessoryViewIdempotent | AKMediaViewer/AKMediaViewerController.swift:238-246 | Requesting the same visibility twice is the same as requesting it once |
| Overlay.HandleTap | AKMediaViewer/AKMediaViewerController.swift:298-303 | At the minimum zoom scale the overlay's visibility flips; zoomed in, nothing changes; only the overlay's opacity can change |
| Overlay.TapTwiceRestores | AKMediaViewer/AKMediaViewerController.swift:298-303 | Two taps at the minimum scale restore visibility, and restore the whole state when the opacity was 0 or 1 |
| Overlay.ScrollViewDidZoom | AKMediaViewer/AKMediaViewerController.swift:335-337 | Afterwards the overlay is visible exactly when the zoom scale equals the minimum; only the overlay's opacity can change |
| Overlay.AddAccessoryViewTimer | AKMediaViewer/AKMediaViewerController.swift:189-193 | Without a player nothing changes. With a player a new, distinct timer is added to the live ones and referenced; the timers already live stay live |
| Overlay.ScheduleTwiceLeavesTwoLive | AKMediaViewer/AKMediaViewerController.swift:189-193 | Scheduling twice with a player adds two live timers, because a pending timer is not cancelled |
| Overlay.TimerFired | AKMediaViewer/AKMediaViewerController.swift:195-199 | A live timer firing is spent, invalidates the referenced timer and leaves the overlay not visible; a timer no longer live changes nothing |
| Overlay.OlderTimerCancelsNewer | AKMediaViewer/AKMediaViewerController.swift:189-199 | With two timers scheduled, the older one firing invalidates the newer one and no live timer remains |
| Overlay.IsAccessoryViewPinned | AKMediaViewer/AKMediaViewerController.swift:222-224 | The overlay is pinned exactly when its superview is the root view |
| Overlay.PinAccessoryView | AKMediaViewer/AKMediaViewerController.swift:222-236 | Afterwards the overlay is pinned to the root view; its opacity and everything else are unchanged |
| Overlay.LayoutControlView | AKMediaViewer/AKMediaViewerController.swift:252-265 | When the overlay is pinned it returns with nothing changed; otherwise the control view exists afterwards; nothing else in the model changes |
| Gestures.TargetRect | AKMediaViewer/AKMediaViewerController.swift:313 | The rectangle has the scroll view's bounds size, and its centre is the tap location scaled by the maximum zoom scale |
| Gestures.HandleDoubleTap | AKMediaViewer/AKMediaViewerController.swift:305-327 | At the minimum scale the target is the maximum scale, with the rectangle centred on the tap (the zero rectangle when nothing is zoomable). Otherwise the target is the minimum scale. A rectangle is scrolled to exactly when the target equals the maximum scale |
| Gestures.ZoomTo | AKMediaViewer/AKMediaViewerController.swift:320 | The scroll view reaches the requested zoom scale and nothing else about it changes |
| Gestures.DoubleTapTwiceRestoresScale | AKMediaViewer/AKMediaViewerController.swift:306-327 | From the minimum or the maximum scale, two double taps return the scroll view to the state it started in |
| Gestures.ZoomOutScrollsWhenScalesCoincide | AKMediaViewer/AKMediaViewerController.swift:315-324 | When the minimum and maximum scales coincide and the view is at neither, zooming out still scrolls, to the zero rectangle |
| Lifecycle.ShowPlayerWithUrl | AKMediaViewer/AKMediaViewerController.swift:133-147 | A new hidden player view without a player is made and the block is queued. A URL that is not a file URL gets an animating indicator and issues exactly StartIndicator. A file URL leaves the indicator alone and issues nothing. The player and the observers are untouched |
| Lifecycle.SetPlayer | AKMediaViewer/AKMediaViewerController.swift:153 | A player view, when there is one, gets the new player and keeps its hidden flag; without a player view nothing happens |
| Lifecycle.NewPlayer | AKMediaViewer/AKMediaViewerController.swift:152 | The new player has the given identity and URL, a current item, and is not ready |
| Lifecycle.RunDeferred | AKMediaViewer/AKMediaViewerController.swift:148-160 | With nothing queued nothing happens. Otherwise, for the oldest URL: the old item's observers are removed before the new player is made; the new player has a fresh identity and unknown status; the registry becomes the cleared one plus the new item's three observations and the player's status observation; the flag is set; the player view gets the player; the initial status notification issues Pause then StartIndicator if an indicator exists; the control view is created unless the overlay is pinned; the scroll view, the flat image, the overlay and the timers are untouched |
| Lifecycle.AddFreshObservations | AKMediaViewer/AKMediaViewerController.swift:154-158 | Registering a fresh player's four observations keeps every multiplicity at one, and the player then carries exactly the four key paths |
| Lifecycle.RunDeferredKeepsInvariant | AKMediaViewer/AKMediaViewerController.swift:148-158 | The deferred block keeps the bookkeeping invariant: no observation registered twice, the flag set with the new item's observations registered, the new player's status observed |
| Lifecycle.RunDeferredReplacesObservations | AKMediaViewer/AKMediaViewerController.swift:148-158 | The new player and its item carry exactly the four key paths, once each. When the flag was set and the old player had an item, the old item's three observations are gone. The old player's status observation stays registered |
| Lifecycle.RunDeferredWithoutItemLeaks | AKMediaViewer/AKMediaViewerController.swift:148-157 | When the old player lost its item while the flag was set, the old item observations stay registered after replacement |
| Lifecycle.InstallZoomView | AKMediaViewer/AKMediaViewerController.swift:201-211 | Given a flat image, the installed scroll view is exactly the one laid out, made visible with a zoom view, and the flat image is hidden; nothing else changes |
| Lifecycle.UninstallZoomView | AKMediaViewer/AKMediaViewerController.swift:213-220 | With a zoom view, only the scroll view's hidden flag is set and only the flat image's is cleared; without one nothing changes |
| Lifecycle.RevealPlayerView | AKMediaViewer/AKMediaViewerController.swift:170 | A player view, when there is one, is shown and keeps its player; without one nothing happens |
| Lifecycle.FocusSurfaces | AKMediaViewer/AKMediaViewerController.swift:164-170 | The zoom view is installed if and only if zoom is enabled and there is no player view, and then the scroll view is exactly the laid-out one, visible, and the flat image is only hidden; the overlay is visible afterwards with its pinning kept; the player view, if any, is revealed; nothing else changes |
| Lifecycle.FocusDidEnd | AKMediaViewer/AKMediaViewerController.swift:163-177 | The zoom view is installed if and only if zoom is enabled and there is no player view, and then the scroll view is exactly the laid-out one and the flat image is only hidden. The overlay becomes visible and the player view is revealed. The timers are unchanged without a player; with one, a new timer is referenced and added to the live ones, and every earlier timer stays live. The commands are exactly StopIndicator (if an indicator exists) then Play when a player exists and is ready, and nothing otherwise. The observers, the queue, the identity counter and the control view are untouched |
| Lifecycle.FocusDidEndLogsIndicator | AKMediaViewer/AKMediaViewerController.swift:174-176 | After the end of a focus, the indicator animates exactly as its last indicator command says, or as before when none was issued |
| Lifecycle.FocusThenTimerHides | AKMediaViewer/AKMediaViewerController.swift:163-199 | With a player, the timer scheduled at the end of focus, when it fires, leaves the overlay not visible |
| Lifecycle.DefocusWillStart | AKMediaViewer/AKMediaViewerController.swift:179-185 | Afterwards the overlay is pinned, with its opacity kept. Pause is issued if and only if a player exists, and nothing else is issued. Without a player view but with a zoom view, only the scroll view is hidden and only the flat image is shown; otherwise the surfaces are unchanged |
| Lifecycle.DefocusSuppressesLayout | AKMediaViewer/AKMediaViewerController.swift:179-185 | After a defocus, laying out the control view changes nothing |
| Lifecycle.ViewWillDisappear | AKMediaViewer/AKMediaViewerController.swift:97-100 | With the flag set and a current item, exactly the item's three observations are removed and the flag is cleared; otherwise nothing changes. The current player's status observation is never removed |
| Lifecycle.Deinit | AKMediaViewer/AKMediaViewerController.swift:81-83 | With the flag set and a current item, the item's three observations and the player's status observation are removed; otherwise only the status observation is removed; without a player nothing is removed. Nothing is ever added |
| Lifecycle.DeinitRemovesRegistered | AKMediaViewer/AKMediaViewerController.swift:81-83 | Under the bookkeeping invariant, the current player's status observation is registered, and the observations left plus the status observation plus (with the flag set and a current item) the three item observations are exactly those registered before, so no removal fails |
| Lifecycle.DeinitLeavesReplacedPlayers | AKMediaViewer/AKMediaViewerController.swift:81-83 | Every observation of a player other than the current one is still registered after deinit |
| Viewer.ChangePlayer | AKMediaViewer/AKMediaViewerController.swift:341-378 | A change the media framework makes to the player keeps whether a player exists and its identity, and changes nothing else |
| Viewer.DoubleTapped | AKMediaViewer/AKMediaViewerController.swift:305-337 | The scroll view reaches the double tap's target scale; when the scale changed, the overlay is visible exactly when the new scale is the minimum; otherwise the overlay is unchanged; nothing else changes |
| Viewer.DoubleTapTogglesOverlay | AKMediaViewer/AKMediaViewerController.swift:305-337 | With distinct minimum and maximum scales, a double tap from the minimum hides the overlay and leaves the minimum, and one from the maximum returns to the minimum and shows the overlay |
| Viewer.Pinched | AKMediaViewer/AKMediaViewerController.swift:204-337 | The scroll view reaches the pinched scale; when the scale changed, the overlay is visible exactly when the new scale is the minimum; otherwise the overlay is unchanged; nothing else changes |
| Viewer.Handle | AKMediaViewer/AKMediaViewerController.swift:133-337 | Only the end of a focus that must install the zoom view without a flat image traps; every other event completes |
| Viewer.Run | AKMediaViewer/AKMediaViewerController.swift:133-337 | A run traps exactly when one of its events traps; otherwise the steps' commands are joined in order |
| Viewer.RunAppend | AKMediaViewer/AKMediaViewerController.swift:133-337 | Running two sequences of events one after the other is running their concatenation: it traps when either part does, and otherwise the command logs are joined |
| Viewer.InitialIsValid | AKMediaViewer/AKMediaViewerController.swift:51-55 | The state after the view loads satisfies the bookkeeping invariant |
| Viewer.HandleKeepsLedger | AKMediaViewer/AKMediaViewerController.swift:133-337 | Every event other than the deferred block and the view disappearing leaves the player identity, the flag, the registry and the identity counter unchanged, and keeps the timer invariant |
| Viewer.HandlePreservesValid | AKMediaViewer/AKMediaViewerController.swift:97-160 | Every event keeps the bookkeeping invariant: no observation registered twice, the flag set exactly when the current item's observations are registered, the current player's status observed, the timers' identities fresh |
| Viewer.RunPreservesValid | AKMediaViewer/AKMediaViewerController.swift:97-160 | For every sequence of events that does not trap, the bookkeeping invariant holds at the end |
| Viewer.HandleQuietOnIndicator | AKMediaViewer/AKMediaViewerController.swift:189-337 | Taps, zooms, timers, the view disappearing and changes to the player's own state issue no command and leave the indicator alone |
| Viewer.HandleLogsIndicator | AKMediaViewer/AKMediaViewerController.swift:133-378 | For every event, the indicator animates afterwards exactly as its last indicator command says, or as before when none was issued |
| Viewer.RunLogsIndicator | AKMediaViewer/AKMediaViewerController.swift:133-378 | For every sequence of events, the indicator the controller references animates at the end exactly as the last indicator command in the whole log says, or as at the start |
| Viewer.RunKeepsPinned | AKMediaViewer/AKMediaViewerController.swift:222-236 | Once pinned, the overlay stays pinned through any sequence of events |
| Viewer.RemoteVideoScenario | AKMediaViewer/AKMediaViewerController.swift:133-160 | For a remote video followed by a ready status, an empty buffer and keep-up, the commands are in turn [StartIndicator], [Pause, StartIndicator], [StopIndicator, Play], [StartIndicator] and [StopIndicator, Play], and the indicator ends stopped |
| Viewer.FocusWithoutPlayerNeverAutoHides | AKMediaViewer/AKMediaViewerController.swift:163-193 | Focusing with zoom before any media is attached installs the zoom view and shows the overlay, but schedules no timer and issues no command |

## Left out

- View geometry is not modelled. This covers frames, `convert` between
  coordinate spaces, the transform copied in `pinView`, and autoresizing.
  It also covers the frame arithmetic of `layoutControlView`,
  `buildVideoFrame` with `AVMakeRect`, and `viewDidLayoutSubviews`.
  Pinning is a boolean, and nothing is claimed about frames or transforms.
- AVFoundation internals are not modelled. The player is an identity with a
  status, a current-item flag and a keep-up estimate. Changes to these are
  explicit events (`Viewer.ChangePlayer`).
- Key-value-observing delivery is not modelled. Notifications are explicit
  `Notify` events that the caller chooses. The one exception is the
  immediate notification that the `.initial` option on the `status`
  observation delivers, which `RunDeferred` includes.
- `DispatchQueue.main.async` is not modelled as a real queue. The deferred
  blocks are a queue of URLs, and `MainQueue` events run them.
- `Timer` scheduling is not modelled. Timers are identities fired by
  `TimerFires` events. The 1.5 s interval is not modelled.
- Animations run to their end value at once, which is what UIKit's model
  layer reports. The 0.5 s durations and the animation options are not
  modelled.
- No concurrency is modelled.
- `AKImageScrollView.displayImage` is not part of this model. The scroll
  view it lays out comes in as a parameter of `FocusDidEnd`.
- Overlay.LayoutControlView: does not model the scrubber's player. The
  control view is created once, and at creation its scrubber is bound to
  the current player. A later `showPlayerWithURL` finds the control view
  already there and does not rebind it, so the scrubber keeps driving the
  replaced player. The model keeps only whether the control view exists.
- `AKVideoControlView.videoControlView()` is not part of this model. Its
  creation is assumed to succeed.
- Replaced views are not modelled. `showPlayerWithURL` adds a new player
  view and, for a remote URL, a new loading indicator as subviews without
  removing the old ones. An old indicator that was animating keeps
  animating, and an old player view keeps its player alive, unpaused. The
  model keeps only the views the controller references, so
  `RunLogsIndicator` and `RemoteVideoScenario` speak of the current
  indicator only.
- `DoubleTapped` and `Pinched` run `scrollViewDidZoom` only when the zoom
  scale actually changes, taking UIKit not to notify the delegate when the
  scale is set to its current value. The intermediate zoom callbacks during
  an animation or a pinch are not modelled: a pinch is its end scale.
- `installZoomView` run twice inserts a second scroll view. Only the latest
  one is modelled, because the view hierarchy is left out.
- `FocusDidEnd`: requires the flat image to exist when it installs the zoom
  view, because `mainImageView.image!` traps otherwise. At the event level,
  `Handle` returns `None` for that trap.
- These are UI plumbing and are not modelled: `beginAppearanceTransition`,
  `supportedInterfaceOrientations`, the nib and coder initialisers, gesture
  recogniser wiring, `viewForZooming` (reduced to the scroll view's
  `zoomView` flag) and the title label's shadow.
- The double-tap animation is modelled by its end state only (`ZoomTo`).
  CGFloat rounding is not modelled.

=== FILE: gestures.dfy ===
/**
 `handleDoubleTap(_:)`: the choice of the target zoom scale and of the
 rectangle to scroll into view. CGFloat is abstracted as `real`; rounding is
 not modelled.
 */
module Gestures {
  import opened ViewerState

  /** The animation a double tap asks for: the zoom scale to reach and, if any, the rectangle to show. */
  datatype ZoomRequest = ZoomRequest(scale: real, visibleRect: Option<Rect>)

  /**
   The rectangle of the scroll view's size whose centre is the tap location
   scaled by the maximum zoom scale.
   */
  function TargetRect(s: ScrollView, location: Point): (r: Rect)
    ensures r.width == s.width && r.height == s.height
    ensures r.x + r.width / 2.0 == location.x * s.maximumZoomScale
    ensures r.y + r.height / 2.0 == location.y * s.maximumZoomScale
  {
    Rect(location.x * s.maximumZoomScale - s.width / 2.0,
         location.y * s.maximumZoomScale - s.height / 2.0,
         s.width, s.height)
  }

  const ZeroRect: Rect := Rect(0.0, 0.0, 0.0, 0.0)

  /**
   At the minimum zoom scale a double tap aims for the maximum scale and the
   rectangle centred on the tap (the zero rectangle when the scroll view has
   no view for zooming); otherwise it aims for the minimum scale. The
   rectangle is scrolled to exactly when the target is the maximum scale.
   */
  function HandleDoubleTap(s: ScrollView, location: Point): (r: ZoomRequest)
    ensures s.zoomScale == s.minimumZoomScale ==>
      r.scale == s.maximumZoomScale
      && r.visibleRect == Some(if s.zoomView then TargetRect(s, location) else ZeroRect)
    ensures s.zoomScale != s.minimumZoomScale ==> r.scale == s.minimumZoomScale
    ensures r.visibleRect.Some? <==> r.scale == s.maximumZoomScale
  {
    var frame := if s.zoomScale == s.minimumZoomScale && s.zoomView then TargetRect(s, location) else ZeroRect;
    var scale := if s.zoomScale == s.minimumZoomScale then s.maximumZoomScale else s.minimumZoomScale;
    ZoomRequest(scale, if scale == s.maximumZoomScale then Some(frame) else None)
  }

  /** The scroll view once the double tap's animation has reached its scale. */
  function ZoomTo(s: ScrollView, r: ZoomRequest): (t: ScrollView)
    ensures t.zoomScale == r.scale
    ensures t == s.(zoomScale := t.zoomScale)
  {
    s.(zoomScale := r.scale)
  }

  /**
   A double tap from the minimum or the maximum zoom scale, followed by a
   second one anywhere, returns to the scale it started from.
   */
  lemma DoubleTapTwiceRestoresScale(s: ScrollView, first: Point, second: Point)
    requires s.zoomScale == s.minimumZoomScale || s.zoomScale == s.maximumZoomScale
    ensures
      var once := ZoomTo(s, HandleDoubleTap(s, first));
      ZoomTo(once, HandleDoubleTap(once, second)) == s
  {
  }

  /**
   When the minimum and maximum scales coincide and the view is not at that
   scale, zooming out still scrolls, to the zero rectangle.
   */
  lemma ZoomOutScrollsWhenScalesCoincide(s: ScrollView, location: Point)
    requires s.minimumZoomScale == s.maximumZoomScale && s.zoomScale != s.minimumZoomScale
    ensures HandleDoubleTap(s, location).visibleRect == Some(ZeroRect)
  {
  }
}

=== FILE: lifecycle.dfy ===
/**
 The controller's entry points that attach media and follow the focus
 lifecycle: `showPlayerWithURL` (its synchronous half and the block it
 queues on the main queue), `focusDidEndWithZoomEnabled`, `defocusWillStart`,
 `installZoomView`/`uninstallZoomView`, `viewWillDisappear` and `deinit`.
 */
module Lifecycle {
  import opened ViewerState
  import opened Observers
  import opened Readiness
  import opened Overlay

  /**
   The synchronous half of `showPlayerWithURL(_:)`: a new hidden player view
   with no player yet, a new animating loading indicator for a URL that is
   not a file URL, and the deferred block queued. The observers and the
   player are left for the deferred block.
   */
  function ShowPlayerWithUrl(c: Controller, url: Url): (s: Step)
    ensures s.next.playerView == Some(PlayerView(true, None))
    ensures s.next.pending == c.pending + [url]
    ensures url.isFileUrl ==> s.next.indicator == c.indicator && s.commands == []
    ensures !url.isFileUrl ==> IsAnimating(s.next) && s.commands == [StartIndicator]
    ensures s.next == c.(playerView := s.next.playerView, pending := s.next.pending, indicator := s.next.indicator)
  {
    var queued := c.(playerView := Some(PlayerView(true, None)), pending := c.pending + [url]);
    if url.isFileUrl then Step(queued, [])
    else Step(queued.(indicator := Some(true)), [StartIndicator])
  }

  /** `playerView?.setPlayer(_:)`. */
  function SetPlayer(view: Option<PlayerView>, id: nat): (r: Option<PlayerView>)
    ensures r.Some? == view.Some?
    ensures r.Some? ==> r.value.player == Some(id) && r.value.hidden == view.value.hidden
  {
    match view
    case None => None
    case Some(v) => Some(v.(player := Some(id)))
  }

  /**
   The player `AVPlayer(url:)` creates: a fresh identity, status unknown, with
   a current item. It is not ready, so the initial status notification pauses.
   */
  function NewPlayer(id: nat, url: Url): (p: Player)
    ensures p.id == id && p.url == url
    ensures p.hasItem && p.status != ReadyToPlay
  {
    Player(id, url, Unknown, true, false)
  }

  /**
   The block `showPlayerWithURL(_:)` queues on the main queue, run for the
   oldest queued URL: remove the old item's observers, create the player,
   hand it to the player view, observe the three item key paths, set the
   flag, observe the player's status (which, with the initial option,
   delivers one status notification at once), and lay out the control view.
   With nothing queued nothing happens.
   */
  function RunDeferred(c: Controller): (s: Step)
    ensures c.pending == [] ==> s == Step(c, [])
    ensures c.pending != [] ==>
      && s.next.player == Some(NewPlayer(c.nextPlayer, c.pending[0]))
      && s.next.nextPlayer == c.nextPlayer + 1
      && s.next.pending == c.pending[1..]
      && s.next.observersAdded
      && s.next.observations
         == RemoveObservers(c).observations + ItemObservations(c.nextPlayer)
            + multiset{StatusObservation(c.nextPlayer)}
      && s.next.playerView == SetPlayer(c.playerView, c.nextPlayer)
      && s.commands == [Pause] + StartIndicatorIfAny(c).commands
      && s.next.indicator == (if c.indicator.Some? then Some(true) else None)
      && s.next.timers == c.timers && s.next.accessory == c.accessory
      && s.next.scroll == c.scroll && s.next.mainImage == c.mainImage
      && (IsAccessoryViewPinned(c) ==> s.next.controlView == c.controlView)
      && (!IsAccessoryViewPinned(c) ==> s.next.controlView)
  {
    if c.pending == [] then Step(c, [])
    else
      var url := c.pending[0];
      var cleared := RemoveObservers(c);
      var id := c.nextPlayer;
      var created := cleared.(
        player := Some(NewPlayer(id, url)),
        nextPlayer := id + 1,
        pending := c.pending[1..],
        playerView := SetPlayer(cleared.playerView, id));
      // `currentItem?` is never nil for a player just created from a URL
      var itemObserved := created.(
        observations := created.observations + ItemObservations(id),
        observersAdded := true);
      var statusObserved := itemObserved.(
        observations := itemObserved.observations + multiset{StatusObservation(id)});
      var initial := ObserveValue(statusObserved, Some(Status));
      Step(LayoutControlView(initial.next), initial.commands)
  }

  /** The four key paths the new player and its item are observed for. */
  function ObservedKeys(): set<string> {
    {PresentationSize, PlayerKeepUp, PlayerHasEmptyBuffer, Status}
  }

  /** Adding one fresh player's four observations keeps every multiplicity at one. */
  lemma AddFreshObservations(m: multiset<Observation>, id: nat)
    requires forall o | o in m :: m[o] == 1
    requires forall o | o in m :: o.player < id
    ensures var n := m + ItemObservations(id) + multiset{StatusObservation(id)};
      && (forall o | o in n :: n[o] == 1)
      && (forall o | o in n :: o.player < id + 1)
      && (forall k :: n[Observation(id, k)] == if k in ObservedKeys() then 1 else 0)
  {
    var n := m + ItemObservations(id) + multiset{StatusObservation(id)};
    forall o | o in n
      ensures n[o] == 1
    {
      if o.player == id {
        assert m[o] == 0;
      }
    }
    forall k
      ensures n[Observation(id, k)] == if k in ObservedKeys() then 1 else 0
    {
      assert Observation(id, k) !in m;
    }
  }

  /** The deferred block keeps the bookkeeping invariant. */
  lemma RunDeferredKeepsInvariant(c: Controller)
    requires LedgerInvariant(c) && c.pending != []
    ensures LedgerInvariant(RunDeferred(c).next)
  {
    RemoveObserversExact(c);
    AddFreshObservations(RemoveObservers(c).observations, c.nextPlayer);
  }

  /**
   After the deferred block the new player and its item carry exactly the
   four observations, one each; when the old player had a current item and
   the flag was set, its three item observations are gone; its status
   observation stays registered.
   */
  lemma RunDeferredReplacesObservations(c: Controller)
    requires LedgerInvariant(c) && c.pending != []
    ensures forall k :: RunDeferred(c).next.observations[Observation(c.nextPlayer, k)]
                        == if k in ObservedKeys() then 1 else 0
    ensures c.observersAdded && HasCurrentItem(c) ==>
      ItemObservations(c.player.value.id) !! RunDeferred(c).next.observations
    ensures c.player.Some? ==> StatusObservation(c.player.value.id) in RunDeferred(c).next.observations
  {
    RemoveObserversExact(c);
    var cleared := RemoveObservers(c).observations;
    AddFreshObservations(cleared, c.nextPlayer);
    var n := RunDeferred(c).next.observations;
    if c.observersAdded && HasCurrentItem(c) {
      var previous := c.player.value.id;
      assert previous < c.nextPlayer;
      forall o | o in ItemObservations(previous)
        ensures o !in n
      {
        assert o !in cleared;
      }
    }
  }

  /**
   Where the flag and the registry part on replacement: when the old player
   has lost its current item while the flag is set, its item observations
   are never removed.
   */
  lemma RunDeferredWithoutItemLeaks(c: Controller)
    requires c.pending != [] && c.observersAdded && c.player.Some? && !c.player.value.hasItem
    ensures ItemObservations(c.player.value.id) <= c.observations ==>
      ItemObservations(c.player.value.id) <= RunDeferred(c).next.observations
  {
  }

  /**
   Whether `focusDidEndWithZoomEnabled(_:)` can run without trapping:
   installing the zoom view force-unwraps the flat image.
   */
  predicate FocusIsSafe(c: Controller, zoomEnabled: bool) {
    zoomEnabled && c.playerView.None? ==> c.mainImage.hasImage
  }

  /**
   `installZoomView`: the new scroll view, laid out by `displayImage` (whose
   scales come in as `laidOut`), becomes the visible zoom surface and the
   flat image is hidden.
   */
  function InstallZoomView(c: Controller, laidOut: ScrollView): (r: Controller)
    requires c.mainImage.hasImage
    ensures r.scroll == laidOut.(hidden := false, zoomView := true)
    ensures r.scroll.zoomView && !r.scroll.hidden && r.mainImage.hidden
    ensures r == c.(scroll := r.scroll, mainImage := c.mainImage.(hidden := true))
  {
    c.(scroll := laidOut.(hidden := false, zoomView := true), mainImage := c.mainImage.(hidden := true))
  }

  /**
   `uninstallZoomView`: when the scroll view has a zoom view, it is hidden and
   the flat image is shown again (its frame is not modelled); otherwise
   nothing happens.
   */
  function UninstallZoomView(c: Controller): (r: Controller)
    ensures c.scroll.zoomView ==> r.scroll == c.scroll.(hidden := true) && r.mainImage == c.mainImage.(hidden := false)
    ensures !c.scroll.zoomView ==> r == c
    ensures r == c.(scroll := c.scroll.(hidden := r.scroll.hidden), mainImage := c.mainImage.(hidden := r.mainImage.hidden))
  {
    if c.scroll.zoomView then
      c.(scroll := c.scroll.(hidden := true), mainImage := c.mainImage.(hidden := false))
    else c
  }

  /** `playerView?.isHidden = false`. */
  function RevealPlayerView(view: Option<PlayerView>): (r: Option<PlayerView>)
    ensures r.Some? == view.Some?
    ensures r.Some? ==> !r.value.hidden && r.value.player == view.value.player
  {
    match view
    case None => None
    case Some(v) => Some(v.(hidden := false))
  }

  /**
   The part of `focusDidEndWithZoomEnabled(_:)` before the timer: install the
   zoom view when asked and there is no player view, show the overlay, and
   reveal the player view.
   */
  function FocusSurfaces(c: Controller, zoomEnabled: bool, laidOut: ScrollView): (r: Controller)
    requires FocusIsSafe(c, zoomEnabled)
    ensures zoomEnabled && c.playerView.None? ==>
      r.scroll == laidOut.(hidden := false, zoomView := true) && r.mainImage == c.mainImage.(hidden := true)
    ensures !(zoomEnabled && c.playerView.None?) ==> r.scroll == c.scroll && r.mainImage == c.mainImage
    ensures Visible(r.accessory) && r.accessory.pinned == c.accessory.pinned
    ensures r.playerView == RevealPlayerView(c.playerView)
    ensures r == c.(scroll := r.scroll, mainImage := r.mainImage, accessory := r.accessory, playerView := r.playerView)
  {
    var zoomed := if zoomEnabled && c.playerView.None? then InstallZoomView(c, laidOut) else c;
    var shown := zoomed.(accessory := ShowAccessoryView(zoomed.accessory, true));
    shown.(playerView := RevealPlayerView(shown.playerView))
  }

  /**
   `focusDidEndWithZoomEnabled(_:)`. The zoom view is installed exactly when
   zoom is enabled and there is no player view; the overlay is made visible;
   the player view is revealed; an auto-hide timer is scheduled only when
   there is a player; and `Play` is issued exactly when the player is ready.
   */
  function FocusDidEnd(c: Controller, zoomEnabled: bool, laidOut: ScrollView): (s: Step)
    requires FocusIsSafe(c, zoomEnabled)
    ensures zoomEnabled && c.playerView.None? ==>
      s.next.scroll == laidOut.(hidden := false, zoomView := true) && s.next.mainImage == c.mainImage.(hidden := true)
    ensures !(zoomEnabled && c.playerView.None?) ==> s.next.scroll == c.scroll && s.next.mainImage == c.mainImage
    ensures Visible(s.next.accessory) && s.next.accessory.pinned == c.accessory.pinned
    ensures s.next.playerView == RevealPlayerView(c.playerView)
    ensures c.player.None? ==> s.next.timers == c.timers
    ensures c.player.Some? ==>
      && s.next.timers.stored.Some?
      && s.next.timers.live == c.timers.live + {s.next.timers.stored.value}
      && (TimersInvariant(c.timers) ==> s.next.timers.stored.value !in c.timers.live)
    ensures s.commands == if c.player.Some? && c.player.value.status == ReadyToPlay
                          then StopIndicatorIfAny(c).commands + [Play] else []
    ensures (Play in s.commands) <==> c.player.Some? && c.player.value.status == ReadyToPlay
    ensures Pause !in s.commands && StartIndicator !in s.commands
    ensures s.next.indicator == if c.player.Some? && c.player.value.status == ReadyToPlay
                                then StopIndicatorIfAny(c).next.indicator else c.indicator
    ensures TimersInvariant(c.timers) ==> TimersInvariant(s.next.timers)
    ensures s.next.player == c.player && s.next.observations == c.observations
    ensures s.next.observersAdded == c.observersAdded
    ensures s.next.pending == c.pending && s.next.nextPlayer == c.nextPlayer
    ensures s.next.controlView == c.controlView
  {
    var timed := AddAccessoryViewTimer(FocusSurfaces(c, zoomEnabled, laidOut));
    if timed.player.Some? && timed.player.value.status == ReadyToPlay then PlayPlayer(timed)
    else Step(timed, [])
  }

  /** The commands of `FocusDidEnd` tell the truth about the indicator. */
  lemma FocusDidEndLogsIndicator(c: Controller, zoomEnabled: bool, laidOut: ScrollView)
    requires FocusIsSafe(c, zoomEnabled)
    ensures IsAnimating(FocusDidEnd(c, zoomEnabled, laidOut).next)
         == AnimatingAfter(IsAnimating(c), FocusDidEnd(c, zoomEnabled, laidOut).commands)
  {
    AnimatingAfterShortLists(IsAnimating(c));
  }

  /**
   After the end of a focus with a player, the timer then firing hides the
   overlay again.
   */
  lemma FocusThenTimerHides(c: Controller, zoomEnabled: bool, laidOut: ScrollView)
    requires FocusIsSafe(c, zoomEnabled) && c.player.Some?
    ensures var focused := FocusDidEnd(c, zoomEnabled, laidOut).next;
      !Visible(TimerFired(focused, focused.timers.stored.value).accessory)
  {
  }

  /**
   `defocusWillStart`: without a player view the zoom view is uninstalled;
   the overlay is always pinned to the root view; `Pause` is issued exactly
   when there is a player.
   */
  function DefocusWillStart(c: Controller): (s: Step)
    ensures IsAccessoryViewPinned(s.next) && s.next.accessory.alpha == c.accessory.alpha
    ensures s.commands == if c.player.Some? then [Pause] else []
    ensures c.playerView.None? && c.scroll.zoomView ==>
      s.next.scroll == c.scroll.(hidden := true) && s.next.mainImage == c.mainImage.(hidden := false)
    ensures c.playerView.Some? ==> s.next.scroll == c.scroll && s.next.mainImage == c.mainImage
    ensures c.playerView.None? && !c.scroll.zoomView ==> s.next.scroll == c.scroll && s.next.mainImage == c.mainImage
    ensures s.next == c.(accessory := s.next.accessory, scroll := s.next.scroll, mainImage := s.next.mainImage)
  {
    var uninstalled := if c.playerView.None? then UninstallZoomView(c) else c;
    Step(PinAccessoryView(uninstalled), if c.player.Some? then [Pause] else [])
  }

  /** After a defocus, laying out the control view (as the deferred block does) changes nothing. */
  lemma DefocusSuppressesLayout(c: Controller)
    ensures LayoutControlView(DefocusWillStart(c).next) == DefocusWillStart(c).next
  {
  }

  /**
   `viewWillDisappear(_:)`: removes the item observers as `removeObservers`
   does. The current player's status observation is not removed, so the
   controller stays registered with the player after it disappears.
   */
  function ViewWillDisappear(c: Controller): (r: Controller)
    ensures c.observersAdded && HasCurrentItem(c) ==>
      !r.observersAdded && r.observations == c.observations - ItemObservations(c.player.value.id)
    ensures !(c.observersAdded && HasCurrentItem(c)) ==> r == c
    ensures c.player.Some? ==>
      r.observations[StatusObservation(c.player.value.id)] == c.observations[StatusObservation(c.player.value.id)]
    ensures r == c.(observersAdded := r.observersAdded, observations := r.observations)
  {
    RemoveObservers(c)
  }

  /**
   The observations still registered once `deinit` has run: the item
   observers are removed as `removeObservers` does and the current player's
   status observer is removed.
   */
  function Deinit(c: Controller): (left: multiset<Observation>)
    ensures left <= c.observations
    ensures c.observersAdded && HasCurrentItem(c) ==>
      left == c.observations - ItemObservations(c.player.value.id) - multiset{StatusObservation(c.player.value.id)}
    ensures c.player.Some? ==> left[StatusObservation(c.player.value.id)]
                               == if c.observations[StatusObservation(c.player.value.id)] == 0 then 0
                                  else c.observations[StatusObservation(c.player.value.id)] - 1
    ensures c.player.Some? && !(c.observersAdded && HasCurrentItem(c)) ==>
      left == c.observations - multiset{StatusObservation(c.player.value.id)}
    ensures c.player.None? ==> left == c.observations
  {
    var cleared := RemoveObservers(c).observations;
    if c.player.Some? then cleared - multiset{StatusObservation(c.player.value.id)} else cleared
  }

  /**
   Under the bookkeeping invariant every removal `deinit` makes removes an
   observation that is registered: the observations left, plus the status
   observation and (when the flag is set and there is a current item) the
   three item observations, are exactly those registered before.
   */
  lemma DeinitRemovesRegistered(c: Controller)
    requires LedgerInvariant(c) && c.player.Some?
    ensures StatusObservation(c.player.value.id) in c.observations
    ensures Deinit(c) + multiset{StatusObservation(c.player.value.id)}
            + (if c.observersAdded && HasCurrentItem(c) then ItemObservations(c.player.value.id) else multiset{})
            == c.observations
  {
    RemoveObserversExact(c);
    var status := StatusObservation(c.player.value.id);
    var cleared := RemoveObservers(c).observations;
    assert status in cleared by {
      if c.observersAdded && HasCurrentItem(c) {
        assert ItemObservations(c.player.value.id)[status] == 0;
      }
    }
    assert Deinit(c) + multiset{status} == cleared;
  }

  /**
   Observations of every player but the current one outlive the controller:
   each status observation of a replaced player is still registered after
   `deinit`.
   */
  lemma DeinitLeavesReplacedPlayers(c: Controller, o: Observation)
    requires o in c.observations && (c.player.None? || o.player != c.player.value.id)
    ensures o in Deinit(c)
  {
  }
}

=== FILE: observers.dfy ===
/**
 Key-value observer bookkeeping: the `observersAdded` flag, the observations
 actually registered, and `removeObservers`. The flag and the registry are
 kept side by side so that the places where they disagree can be stated.
 */
module Observers {
  import opened ViewerState

  /** The three observations registered on a player's current item. */
  function ItemObservations(id: nat): multiset<Observation> {
    multiset{
      Observation(id, PresentationSize),
      Observation(id, PlayerKeepUp),
      Observation(id, PlayerHasEmptyBuffer)}
  }

  /** The observation registered on the player itself. */
  function StatusObservation(id: nat): Observation {
    Observation(id, Status)
  }

  /**
   What the controller's bookkeeping keeps true: no observation is registered
   twice, every observation belongs to a player already created, the current
   player's status is observed, and the flag matches the registry for the
   current player (set exactly when its item observations are registered).
   */
  predicate LedgerInvariant(c: Controller) {
    && (forall o | o in c.observations :: c.observations[o] == 1)
    && (forall o | o in c.observations :: o.player < c.nextPlayer)
    && (c.observersAdded ==> c.player.Some?)
    && (c.player.Some? ==> c.player.value.id < c.nextPlayer)
    && (c.player.Some? ==> StatusObservation(c.player.value.id) in c.observations)
    && (c.player.Some? && c.observersAdded ==> ItemObservations(c.player.value.id) <= c.observations)
    && (c.player.Some? && !c.observersAdded ==> ItemObservations(c.player.value.id) !! c.observations)
  }

  /**
   `removeObservers(player:)` called with the current player. With the flag
   clear it does nothing. With the flag set and a current item it unregisters
   the three item key paths and clears the flag. With the flag set but no
   player or no current item it returns early and the flag stays set.
   */
  function RemoveObservers(c: Controller): (r: Controller)
    ensures r.observersAdded == (c.observersAdded && !HasCurrentItem(c))
    ensures c.observersAdded && HasCurrentItem(c) ==>
      r.observations == c.observations - ItemObservations(c.player.value.id)
    ensures !(c.observersAdded && HasCurrentItem(c)) ==> r.observations == c.observations
    ensures r == c.(observersAdded := r.observersAdded, observations := r.observations)
  {
    if c.observersAdded then
      if !HasCurrentItem(c) then c
      else
        c.(observersAdded := false, observations := c.observations - ItemObservations(c.player.value.id))
    else c
  }

  /** A second `removeObservers` after any first one changes nothing. */
  lemma RemoveObserversIdempotent(c: Controller)
    ensures RemoveObservers(RemoveObservers(c)) == RemoveObservers(c)
  {
  }

  /**
   Under the invariant, a removal takes away exactly the three item
   observations, each of which was registered (so no unregistered observer is
   ever removed, which key-value observing would reject), and the invariant
   still holds afterwards.
   */
  lemma RemoveObserversExact(c: Controller)
    requires LedgerInvariant(c)
    ensures c.observersAdded && HasCurrentItem(c) ==>
      RemoveObservers(c).observations + ItemObservations(c.player.value.id) == c.observations
    ensures LedgerInvariant(RemoveObservers(c))
  {
    var r := RemoveObservers(c);
    if c.observersAdded && HasCurrentItem(c) {
      var items := ItemObservations(c.player.value.id);
      assert r.observations == c.observations - items;
      assert r.observations + items == c.observations;
      forall o
        ensures !(o in items && o in r.observations)
      {
        if o in items {
          assert c.observations[o] == 1;
          assert items[o] == 1;
        }
      }
      assert items !! r.observations;
    }
  }

  /**
   Where the flag and the registry part: with the flag set and the current
   item gone, `removeObservers` leaves the flag set and every item
   observation still registered.
   */
  lemma RemoveObserversWithoutItemKeepsFlag(c: Controller)
    requires c.observersAdded && c.player.Some? && !c.player.value.hasItem
    ensures RemoveObservers(c).observersAdded
    ensures RemoveObservers(c).observations == c.observations
  {
  }
}

=== FILE: overlay.dfy ===
/**
 The accessory overlay: its visibility (`showAccessoryView`,
 `accessoryViewsVisible`, `handleTap`, `scrollViewDidZoom`), the auto-hide
 timer, pinning to the root view, and the early return of
 `layoutControlView` once pinned.
 */
module Overlay {
  import opened ViewerState

  /** `accessoryViewsVisible`: fully opaque counts as visible, anything else does not. */
  predicate Visible(a: Accessory) {
    a.alpha == 1.0
  }

  /**
   `showAccessoryView(_:)`. Does nothing when visibility already matches;
   otherwise sets the opacity to exactly 1 or 0 (the animation's end value).
   Either way the overlay is afterwards visible exactly when asked.
   */
  function ShowAccessoryView(a: Accessory, visible: bool): (r: Accessory)
    ensures Visible(r) == visible
    ensures Visible(a) == visible ==> r == a
    ensures Visible(a) != visible ==> r.alpha == (if visible then 1.0 else 0.0)
    ensures r.pinned == a.pinned
  {
    if visible == Visible(a) then a
    else a.(alpha := if visible then 1.0 else 0.0)
  }

  /** Asking twice for the same visibility is asking once. */
  lemma ShowAccessoryViewIdempotent(a: Accessory, visible: bool)
    ensures ShowAccessoryView(ShowAccessoryView(a, visible), visible) == ShowAccessoryView(a, visible)
  {
  }

  predicate AtMinimumZoom(s: ScrollView) {
    s.zoomScale == s.minimumZoomScale
  }

  /**
   `handleTap(_:)`: at the minimum zoom scale the overlay's visibility flips;
   zoomed in, the tap is ignored. Nothing but the overlay's opacity changes.
   */
  function HandleTap(c: Controller): (r: Controller)
    ensures AtMinimumZoom(c.scroll) ==> Visible(r.accessory) == !Visible(c.accessory)
    ensures !AtMinimumZoom(c.scroll) ==> r == c
    ensures r == c.(accessory := c.accessory.(alpha := r.accessory.alpha))
  {
    if AtMinimumZoom(c.scroll) then c.(accessory := ShowAccessoryView(c.accessory, !Visible(c.accessory)))
    else c
  }

  /**
   Two taps at the minimum zoom scale restore visibility, and restore the
   whole state when the overlay was fully opaque or fully transparent.
   */
  lemma TapTwiceRestores(c: Controller)
    requires AtMinimumZoom(c.scroll)
    ensures Visible(HandleTap(HandleTap(c)).accessory) == Visible(c.accessory)
    ensures c.accessory.alpha == 0.0 || c.accessory.alpha == 1.0 ==> HandleTap(HandleTap(c)) == c
  {
  }

  /**
   `scrollViewDidZoom(_:)`: the overlay is shown exactly when the zoom is back
   at its minimum. Nothing but the overlay's opacity changes.
   */
  function ScrollViewDidZoom(c: Controller): (r: Controller)
    ensures Visible(r.accessory) == AtMinimumZoom(c.scroll)
    ensures r == c.(accessory := c.accessory.(alpha := r.accessory.alpha))
  {
    c.(accessory := ShowAccessoryView(c.accessory, AtMinimumZoom(c.scroll)))
  }

  /** Every timer identity handed out so far is below `next`. */
  predicate TimersInvariant(t: Timers) {
    && (forall id | id in t.live :: id < t.next)
    && (t.stored.Some? ==> t.stored.value < t.next)
  }

  /**
   `addAccessoryViewTimer`: with a player, schedules a new one-shot timer and
   keeps a reference to it. A timer already scheduled is not cancelled, so
   it stays live beside the new one. Without a player nothing happens.
   */
  function AddAccessoryViewTimer(c: Controller): (r: Controller)
    ensures TimersInvariant(c.timers) ==> TimersInvariant(r.timers)
    ensures c.player.None? ==> r == c
    ensures c.player.Some? ==>
      && r.timers.stored.Some?
      && r.timers.live == c.timers.live + {r.timers.stored.value}
      && (TimersInvariant(c.timers) ==> r.timers.stored.value !in c.timers.live)
    ensures r == c.(timers := r.timers)
  {
    if c.player.Some? then
      var id := c.timers.next;
      c.(timers := Timers(c.timers.live + {id}, Some(id), id + 1))
    else c
  }

  /** Scheduling twice without a firing in between leaves two timers live. */
  lemma ScheduleTwiceLeavesTwoLive(c: Controller)
    requires TimersInvariant(c.timers) && c.player.Some?
    ensures |AddAccessoryViewTimer(AddAccessoryViewTimer(c)).timers.live| == |c.timers.live| + 2
  {
    var once := AddAccessoryViewTimer(c);
    assert |once.timers.live| == |c.timers.live| + 1;
  }

  /**
   A timer fires and runs `removeAccessoryViewTimer`: the firing timer is
   spent, the timer the controller references is invalidated (it may be a
   different, later one), and the overlay is asked to hide. A timer that is
   no longer live does not fire.
   */
  function TimerFired(c: Controller, id: nat): (r: Controller)
    ensures id !in c.timers.live ==> r == c
    ensures id in c.timers.live ==>
      && !Visible(r.accessory)
      && r.timers.live == c.timers.live - {id} - (if c.timers.stored.Some? then {c.timers.stored.value} else {})
      && r.timers.stored == c.timers.stored && r.timers.next == c.timers.next
    ensures r == c.(timers := r.timers, accessory := c.accessory.(alpha := r.accessory.alpha))
  {
    if id !in c.timers.live then c
    else
      var spent := c.timers.live - {id};
      var live := if c.timers.stored.Some? then spent - {c.timers.stored.value} else spent;
      c.(timers := c.timers.(live := live), accessory := ShowAccessoryView(c.accessory, false))
  }

  /**
   With two timers scheduled, the older one firing first also invalidates the
   newer one: no timer is left to fire.
   */
  lemma OlderTimerCancelsNewer(c: Controller)
    requires TimersInvariant(c.timers) && c.player.Some? && c.timers.live == {}
    ensures AddAccessoryViewTimer(c).timers.stored == Some(c.timers.next)
    ensures TimerFired(AddAccessoryViewTimer(AddAccessoryViewTimer(c)), c.timers.next).timers.live == {}
  {
    var twice := AddAccessoryViewTimer(AddAccessoryViewTimer(c));
    assert twice.timers.live == {c.timers.next, c.timers.next + 1};
  }

  /** `isAccessoryViewPinned`: the overlay's superview is the root view. */
  predicate IsAccessoryViewPinned(c: Controller) {
    c.accessory.pinned
  }

  /**
   `pinAccessoryView`: re-parents the overlay to the root view. Only the
   anchoring is modelled; the frame and transform carried across are not.
   */
  function PinAccessoryView(c: Controller): (r: Controller)
    ensures IsAccessoryViewPinned(r)
    ensures r.accessory.alpha == c.accessory.alpha
    ensures r == c.(accessory := r.accessory)
  {
    c.(accessory := c.accessory.(pinned := true))
  }

  /**
   `layoutControlView`: returns at once when the overlay is pinned; otherwise
   makes sure the video control view exists (its frame arithmetic is not
   modelled).
   */
  function LayoutControlView(c: Controller): (r: Controller)
    ensures IsAccessoryViewPinned(c) ==> r == c
    ensures !IsAccessoryViewPinned(c) ==> r.controlView
    ensures r == c.(controlView := r.controlView)
    ensures c.controlView ==> r.controlView
  {
    if IsAccessoryViewPinned(c) then c
    else c.(controlView := true)
  }
}

=== FILE: readiness.dfy ===
/**
 Readiness event dispatch: `playPLayer` and `observeValue`. Each observed key
 path is mapped to commands for the loading indicator and the player. A
 command is issued only when its receiver exists, as the optional chaining
 on `activityIndicator` and `player` does.
 */
module Readiness {
  import opened ViewerState

  /** `activityIndicator?.startAnimating()`. */
  function StartIndicatorIfAny(c: Controller): (s: Step)
    ensures s.commands == if c.indicator.Some? then [StartIndicator] else []
    ensures s.next == c.(indicator := s.next.indicator)
    ensures s.next.indicator.Some? == c.indicator.Some?
    ensures c.indicator.Some? ==> IsAnimating(s.next)
  {
    if c.indicator.Some? then Step(c.(indicator := Some(true)), [StartIndicator]) else Step(c, [])
  }

  /** `activityIndicator?.stopAnimating()`. */
  function StopIndicatorIfAny(c: Controller): (s: Step)
    ensures s.commands == if c.indicator.Some? then [StopIndicator] else []
    ensures s.next == c.(indicator := s.next.indicator)
    ensures s.next.indicator.Some? == c.indicator.Some?
    ensures !IsAnimating(s.next)
  {
    if c.indicator.Some? then Step(c.(indicator := Some(false)), [StopIndicator]) else Step(c, [])
  }

  /** `playPLayer`: stop the indicator, then play. */
  function PlayPlayer(c: Controller): (s: Step)
    ensures s.commands == StopIndicatorIfAny(c).commands + (if c.player.Some? then [Play] else [])
    ensures s.next == c.(indicator := s.next.indicator)
    ensures !IsAnimating(s.next)
  {
    var stopped := StopIndicatorIfAny(c);
    Step(stopped.next, stopped.commands + if c.player.Some? then [Play] else [])
  }

  /** The `default` branch of the status switch: pause, then restart the indicator. */
  function PauseAndWait(c: Controller): (s: Step)
    ensures s.commands == (if c.player.Some? then [Pause] else []) + StartIndicatorIfAny(c).commands
    ensures s.next == c.(indicator := s.next.indicator)
    ensures s.next.indicator.Some? == c.indicator.Some?
    ensures c.indicator.Some? ==> IsAnimating(s.next)
  {
    var started := StartIndicatorIfAny(c);
    Step(started.next, (if c.player.Some? then [Pause] else []) + started.commands)
  }

  /**
   `observeValue(forKeyPath:...)`. A nil key path returns at once. The keep-up
   key plays whenever the current item is likely to keep up, whatever the
   status. The status key plays when ready and otherwise pauses and restarts
   the indicator. An empty buffer only restarts the indicator. The
   presentation size and unknown key paths issue nothing. Only the indicator
   ever changes.
   */
  function ObserveValue(c: Controller, keyPath: Option<string>): (s: Step)
    ensures s.next == c.(indicator := s.next.indicator)
    ensures s.next.indicator.Some? == c.indicator.Some?
    ensures keyPath.None? ==> s == Step(c, [])
    ensures keyPath == Some(PlayerKeepUp) ==>
      s.commands == if HasCurrentItem(c) && c.player.value.likelyToKeepUp
                    then StopIndicatorIfAny(c).commands + [Play] else []
    ensures keyPath == Some(Status) && c.player.Some? ==>
      s.commands == if c.player.value.status == ReadyToPlay
                    then StopIndicatorIfAny(c).commands + [Play]
                    else [Pause] + StartIndicatorIfAny(c).commands
    ensures keyPath == Some(Status) && c.player.None? ==> s == Step(c, [])
    ensures keyPath == Some(PlayerHasEmptyBuffer) ==> s.commands == StartIndicatorIfAny(c).commands
    ensures keyPath == Some(PresentationSize) ==> s == Step(c, [])
    ensures keyPath.Some? && keyPath.value !in {PlayerKeepUp, Status, PlayerHasEmptyBuffer} ==> s == Step(c, [])
  {
    match keyPath
    case None => Step(c, [])
    case Some(path) =>
      if path == PlayerKeepUp then
        if !HasCurrentItem(c) then Step(c, [])
        else if c.player.value.likelyToKeepUp then PlayPlayer(c)
        else Step(c, [])
      else if path == Status then
        if c.player.None? then Step(c, [])
        else if c.player.value.status == ReadyToPlay then PlayPlayer(c)
        else PauseAndWait(c)
      else if path == PlayerHasEmptyBuffer then
        StartIndicatorIfAny(c)
      else
        // presentation size only asks the view to redisplay; other keys fall to `default`
        Step(c, [])
  }

  /** Whether the indicator animates after the commands run in order, starting from `animating`. */
  function AnimatingAfter(animating: bool, commands: seq<Command>): bool
    decreases |commands|
  {
    if commands == [] then animating
    else
      var last := commands[|commands| - 1];
      if last == StartIndicator then true
      else if last == StopIndicator then false
      else AnimatingAfter(animating, commands[..|commands| - 1])
  }

  /** Running two command lists one after the other is running their concatenation. */
  lemma {:induction false} AnimatingAfterAppend(animating: bool, xs: seq<Command>, ys: seq<Command>)
    ensures AnimatingAfter(AnimatingAfter(animating, xs), ys) == AnimatingAfter(animating, xs + ys)
    decreases |ys|
  {
    if ys == [] {
      assert xs + ys == xs;
    } else {
      var zs := xs + ys;
      assert zs[|zs| - 1] == ys[|ys| - 1];
      assert zs[..|zs| - 1] == xs + ys[..|ys| - 1];
      AnimatingAfterAppend(animating, xs, ys[..|ys| - 1]);
    }
  }

  /** The command lists the controller issues, and what each does to the indicator. */
  lemma AnimatingAfterShortLists(animating: bool)
    ensures AnimatingAfter(animating, []) == animating
    ensures AnimatingAfter(animating, [Play]) == animating
    ensures AnimatingAfter(animating, [Pause]) == animating
    ensures AnimatingAfter(animating, [StartIndicator]) == true
    ensures AnimatingAfter(animating, [StopIndicator]) == false
    ensures AnimatingAfter(animating, [StopIndicator, Play]) == false
    ensures AnimatingAfter(animating, [Pause, StartIndicator]) == true
  {
    assert [StopIndicator, Play][..1] == [StopIndicator];
    assert [Play][..0] == [];
    assert [Pause][..0] == [];
  }

  /**
   The command log tells the truth about the indicator: after every dispatch,
   the indicator animates exactly when the last indicator command issued says
   so (or, with none issued, exactly when it animated before).
   */
  lemma ObserveValueLogsIndicator(c: Controller, keyPath: Option<string>)
    ensures IsAnimating(ObserveValue(c, keyPath).next)
         == AnimatingAfter(IsAnimating(c), ObserveValue(c, keyPath).commands)
  {
    AnimatingAfterShortLists(IsAnimating(c));
    var s := ObserveValue(c, keyPath);
    if keyPath == Some(PlayerKeepUp) {
      if HasCurrentItem(c) && c.player.value.likelyToKeepUp {
        assert s == PlayPlayer(c);
      } else {
        assert s == Step(c, []);
      }
    } else if keyPath == Some(Status) && c.player.Some? {
      if c.player.value.status == ReadyToPlay {
        assert s == PlayPlayer(c);
      } else {
        assert s == PauseAndWait(c);
      }
    } else if keyPath == Some(PlayerHasEmptyBuffer) {
      assert s == StartIndicatorIfAny(c);
    } else {
      assert s == Step(c, []);
    }
  }

  /**
   `Play` is issued exactly for a keep-up event on an item likely to keep up,
   or a status event while the player is ready.
   */
  lemma PlayIssuedIff(c: Controller, keyPath: Option<string>)
    ensures Play in ObserveValue(c, keyPath).commands <==>
      (keyPath == Some(PlayerKeepUp) && HasCurrentItem(c) && c.player.value.likelyToKeepUp)
      || (keyPath == Some(Status) && c.player.Some? && c.player.value.status == ReadyToPlay)
  {
  }

  /** `Pause` is issued exactly for a status event while the player is not ready. */
  lemma PauseIssuedIff(c: Controller, keyPath: Option<string>)
    ensures Pause in ObserveValue(c, keyPath).commands <==>
      keyPath == Some(Status) && c.player.Some? && c.player.value.status != ReadyToPlay
  {
  }

  /** No event both plays and pauses, and no event starts and stops the indicator. */
  lemma NoConflictingCommands(c: Controller, keyPath: Option<string>)
    ensures !(Play in ObserveValue(c, keyPath).commands && Pause in ObserveValue(c, keyPath).commands)
    ensures !(StartIndicator in ObserveValue(c, keyPath).commands
              && StopIndicator in ObserveValue(c, keyPath).commands)
  {
  }
}

=== FILE: state.dfy ===
/**
 The state of the media viewer controller, reduced to the bits its control
 logic branches on. UIKit views become small records, the AVPlayer becomes an
 identity with a status and a current item, and the key-value observations
 the controller has registered are kept as a multiset of (player, key path)
 pairs so that a double registration would be visible.
 */
module ViewerState {

  datatype Option<T> = None | Some(value: T)

  /** What the controller tells the player and the loading indicator to do. */
  datatype Command = Play | Pause | StartIndicator | StopIndicator

  // The four key paths the controller observes.
  const PresentationSize: string := "presentationSize"
  const PlayerKeepUp: string := "playbackLikelyToKeepUp"
  const PlayerHasEmptyBuffer: string := "playbackBufferEmpty"
  const Status: string := "status"

  /** A media location; `isFileUrl` is true for local files. */
  datatype Url = Url(path: string, isFileUrl: bool)

  datatype PlayerStatus = Unknown | ReadyToPlay | Failed

  /**
   An AVPlayer: its identity, the URL it was created from, its status and,
   when it has a current item, whether that item is likely to keep up.
   */
  datatype Player = Player(id: nat, url: Url, status: PlayerStatus, hasItem: bool, likelyToKeepUp: bool)

  /** One registered key-value observation: the player (or its item) and the key path. */
  datatype Observation = Observation(player: nat, keyPath: string)

  /** The inline video view; `player` is the identity handed to its layer. */
  datatype PlayerView = PlayerView(hidden: bool, player: Option<nat>)

  /** The title/scrubber overlay: its opacity and whether it has been re-parented to the root view. */
  datatype Accessory = Accessory(alpha: real, pinned: bool)

  /**
   Auto-hide timers: the identities of the timers still scheduled, the one the
   controller holds a reference to, and the next identity to hand out.
   */
  datatype Timers = Timers(live: set<nat>, stored: Option<nat>, next: nat)

  /** The zoomable image surface; `zoomView` is true once it displays an image it can zoom. */
  datatype ScrollView = ScrollView(
    zoomScale: real,
    minimumZoomScale: real,
    maximumZoomScale: real,
    width: real,
    height: real,
    hidden: bool,
    zoomView: bool)

  /** The flat image view. */
  datatype MainImage = MainImage(hasImage: bool, hidden: bool)

  datatype Point = Point(x: real, y: real)
  datatype Rect = Rect(x: real, y: real, width: real, height: real)

  datatype Controller = Controller(
    player: Option<Player>,
    observersAdded: bool,
    observations: multiset<Observation>,
    nextPlayer: nat,
    pending: seq<Url>,            // blocks queued on the main queue by showPlayerWithURL
    indicator: Option<bool>,      // the activity indicator, if any, and whether it animates
    playerView: Option<PlayerView>,
    accessory: Accessory,
    timers: Timers,
    scroll: ScrollView,
    mainImage: MainImage,
    controlView: bool)            // whether the video control view has been created

  /** The result of an entry point: the new state and the commands it issued, in order. */
  datatype Step = Step(next: Controller, commands: seq<Command>)

  /** The default scroll view the controller starts with, before any zoom view is installed. */
  const DefaultScrollView: ScrollView := ScrollView(1.0, 1.0, 1.0, 0.0, 0.0, false, false)

  /** The controller once its view has loaded: no player, no observers, overlay transparent. */
  function Initial(hasImage: bool): (c: Controller)
    ensures c.player.None? && !c.observersAdded && c.observations == multiset{}
    ensures c.accessory.alpha == 0.0 && !c.accessory.pinned
  {
    Controller(
      None, false, multiset{}, 0, [], None, None,
      Accessory(0.0, false), Timers({}, None, 0), DefaultScrollView,
      MainImage(hasImage, false), false)
  }

  predicate HasCurrentItem(c: Controller) {
    c.player.Some? && c.player.value.hasItem
  }

  /** Whether the loading indicator exists and is animating. */
  predicate IsAnimating(c: Controller) {
    c.indicator == Some(true)
  }
}

=== FILE: viewer.dfy ===
/**
 The controller as one state machine: every entry point, every main-queue
 block, timer firing and change the player or the user makes becomes an
 event, and properties are stated over arbitrary sequences of events.
 */
module Viewer {
  import opened ViewerState
  import opened Observers
  import opened Readiness
  import opened Overlay
  import opened Gestures
  import opened Lifecycle

  datatype Event =
    | ShowPlayer(url: Url)                          // showPlayerWithURL(_:)
    | MainQueue                                     // the oldest block it queued runs
    | Notify(keyPath: Option<string>)               // observeValue(forKeyPath:...)
    | FocusEnded(zoomEnabled: bool, laidOut: ScrollView)  // focusDidEndWithZoomEnabled(_:)
    | DefocusStarts                                 // defocusWillStart()
    | Tap                                           // handleTap(_:)
    | DoubleTap(location: Point)                    // handleDoubleTap(_:), once its animation ends
    | DidZoom                                       // scrollViewDidZoom(_:)
    | Pinch(scale: real)                            // the user changes the zoom scale
    | TimerFires(id: nat)                           // an auto-hide timer fires
    | Disappear                                     // viewWillDisappear(_:)
    | StatusBecomes(status: PlayerStatus)           // the player's status changes
    | KeepUpBecomes(likely: bool)                   // the current item's keep-up estimate changes
    | ItemReleased                                  // the player loses its current item

  /** A change the media framework makes to the player. */
  datatype PlayerChange = NewStatus(status: PlayerStatus) | NewKeepUp(likely: bool) | LoseItem

  /** The player after a change; a missing player stays missing and keeps its identity. */
  function ChangePlayer(c: Controller, change: PlayerChange): (r: Controller)
    ensures r.player.Some? == c.player.Some?
    ensures r.player.Some? ==> r.player.value.id == c.player.value.id
    ensures r == c.(player := r.player)
  {
    match c.player
    case None => c
    case Some(p) =>
      c.(player := Some(match change
                        case NewStatus(status) => p.(status := status)
                        case NewKeepUp(likely) => p.(likelyToKeepUp := likely)
                        case LoseItem => p.(hasItem := false)))
  }

  /**
   A double tap once its animation ends. Setting the scroll view's zoom scale
   tells its delegate, the controller, through `scrollViewDidZoom`, so a
   change of scale also shows or hides the overlay.
   */
  function DoubleTapped(c: Controller, location: Point): (r: Controller)
    ensures r.scroll == ZoomTo(c.scroll, HandleDoubleTap(c.scroll, location))
    ensures r.scroll.zoomScale != c.scroll.zoomScale ==> Visible(r.accessory) == AtMinimumZoom(r.scroll)
    ensures r.scroll.zoomScale == c.scroll.zoomScale ==> r.accessory == c.accessory
    ensures r == c.(scroll := r.scroll, accessory := c.accessory.(alpha := r.accessory.alpha))
  {
    var zoomed := c.(scroll := ZoomTo(c.scroll, HandleDoubleTap(c.scroll, location)));
    if zoomed.scroll.zoomScale != c.scroll.zoomScale then ScrollViewDidZoom(zoomed) else zoomed
  }

  /**
   With distinct minimum and maximum scales, a double tap from the minimum
   zooms in and hides the overlay, and one from the maximum zooms out and
   shows it.
   */
  lemma DoubleTapTogglesOverlay(c: Controller, location: Point)
    requires c.scroll.minimumZoomScale != c.scroll.maximumZoomScale
    requires AtMinimumZoom(c.scroll) || c.scroll.zoomScale == c.scroll.maximumZoomScale
    ensures Visible(DoubleTapped(c, location).accessory) == (c.scroll.zoomScale == c.scroll.maximumZoomScale)
    ensures AtMinimumZoom(DoubleTapped(c, location).scroll) == (c.scroll.zoomScale == c.scroll.maximumZoomScale)
  {
  }

  /**
   The user pinches the scroll view to a new zoom scale. As for a double
   tap, the controller is the scroll view's delegate, so a change of scale
   runs `scrollViewDidZoom` and shows or hides the overlay.
   */
  function Pinched(c: Controller, scale: real): (r: Controller)
    ensures r.scroll == c.scroll.(zoomScale := scale)
    ensures scale != c.scroll.zoomScale ==> Visible(r.accessory) == (scale == c.scroll.minimumZoomScale)
    ensures scale == c.scroll.zoomScale ==> r.accessory == c.accessory
    ensures r == c.(scroll := r.scroll, accessory := c.accessory.(alpha := r.accessory.alpha))
  {
    var zoomed := c.(scroll := c.scroll.(zoomScale := scale));
    if scale != c.scroll.zoomScale then ScrollViewDidZoom(zoomed) else zoomed
  }

  /**
   One event. `None` means the controller traps: the zoom view is installed
   while the flat image has no image to force-unwrap. No other event traps.
   */
  function Handle(c: Controller, e: Event): (r: Option<Step>)
    ensures r.None? <==> e.FocusEnded? && !FocusIsSafe(c, e.zoomEnabled)
  {
    match e
    case ShowPlayer(url) => Some(ShowPlayerWithUrl(c, url))
    case MainQueue => Some(RunDeferred(c))
    case Notify(keyPath) => Some(ObserveValue(c, keyPath))
    case FocusEnded(zoomEnabled, laidOut) =>
      if FocusIsSafe(c, zoomEnabled) then Some(FocusDidEnd(c, zoomEnabled, laidOut)) else None
    case DefocusStarts => Some(DefocusWillStart(c))
    case Tap => Some(Step(HandleTap(c), []))
    case DoubleTap(location) => Some(Step(DoubleTapped(c, location), []))
    case DidZoom => Some(Step(ScrollViewDidZoom(c), []))
    case Pinch(scale) => Some(Step(Pinched(c, scale), []))
    case TimerFires(id) => Some(Step(TimerFired(c, id), []))
    case Disappear => Some(Step(ViewWillDisappear(c), []))
    case StatusBecomes(status) => Some(Step(ChangePlayer(c, NewStatus(status)), []))
    case KeepUpBecomes(likely) => Some(Step(ChangePlayer(c, NewKeepUp(likely)), []))
    case ItemReleased => Some(Step(ChangePlayer(c, LoseItem), []))
  }

  /** Events in order; the commands of all steps are concatenated. `None` if some step traps. */
  function Run(c: Controller, events: seq<Event>): Option<Step>
    decreases |events|
  {
    if events == [] then Some(Step(c, []))
    else
      match Handle(c, events[0])
      case None => None
      case Some(first) =>
        match Run(first.next, events[1..])
        case None => None
        case Some(rest) => Some(Step(rest.next, first.commands + rest.commands))
  }

  /**
   Running two sequences of events one after the other is running their
   concatenation: it traps when either part traps, and otherwise ends where
   the second part ends, with the two command logs joined.
   */
  lemma {:induction false} RunAppend(c: Controller, xs: seq<Event>, ys: seq<Event>)
    ensures Run(c, xs + ys)
         == match Run(c, xs)
            case None => None
            case Some(a) =>
              match Run(a.next, ys)
              case None => None
              case Some(b) => Some(Step(b.next, a.commands + b.commands))
    decreases |xs|
  {
    if xs == [] {
      assert xs + ys == ys;
      match Run(c, ys)
      case None =>
      case Some(b) => assert [] + b.commands == b.commands;
    } else {
      assert (xs + ys)[0] == xs[0];
      assert (xs + ys)[1..] == xs[1..] + ys;
      match Handle(c, xs[0])
      case None =>
      case Some(first) =>
        RunAppend(first.next, xs[1..], ys);
        match Run(first.next, xs[1..])
        case None =>
        case Some(a) =>
          match Run(a.next, ys)
          case None =>
          case Some(b) =>
            assert first.commands + (a.commands + b.commands) == (first.commands + a.commands) + b.commands;
    }
  }

  predicate Valid(c: Controller) {
    LedgerInvariant(c) && TimersInvariant(c.timers)
  }

  lemma InitialIsValid(hasImage: bool)
    ensures Valid(Initial(hasImage))
  {
  }

  /** Same player identity, flag, registry and identity counter. */
  predicate SameLedger(c: Controller, d: Controller) {
    && d.observations == c.observations
    && d.observersAdded == c.observersAdded
    && d.nextPlayer == c.nextPlayer
    && d.player.Some? == c.player.Some?
    && (d.player.Some? ==> d.player.value.id == c.player.value.id)
  }

  lemma SameLedgerKeepsInvariant(c: Controller, d: Controller)
    requires LedgerInvariant(c) && SameLedger(c, d)
    ensures LedgerInvariant(d)
  {
  }

  /** A step that leaves the ledger alone and keeps the timer invariant keeps `Valid`. */
  lemma SameLedgerKeepsValid(c: Controller, d: Controller)
    requires Valid(c) && SameLedger(c, d) && TimersInvariant(d.timers)
    ensures Valid(d)
  {
    SameLedgerKeepsInvariant(c, d);
  }

  /** Every event other than the main-queue block and `viewWillDisappear` leaves the ledger alone. */
  lemma HandleKeepsLedger(c: Controller, e: Event)
    requires Handle(c, e).Some? && !e.MainQueue? && !e.Disappear?
    ensures SameLedger(c, Handle(c, e).value.next)
    ensures TimersInvariant(c.timers) ==> TimersInvariant(Handle(c, e).value.next.timers)
  {
  }

  /** Every event keeps the bookkeeping invariant. */
  lemma HandlePreservesValid(c: Controller, e: Event)
    requires Valid(c) && Handle(c, e).Some?
    ensures Valid(Handle(c, e).value.next)
  {
    if e.MainQueue? {
      if c.pending != [] {
        RunDeferredKeepsInvariant(c);
      }
    } else if e.Disappear? {
      RemoveObserversExact(c);
    } else {
      HandleKeepsLedger(c, e);
      SameLedgerKeepsValid(c, Handle(c, e).value.next);
    }
  }

  /**
   Whatever the events, the bookkeeping invariant holds throughout: in
   particular no key path is ever observed twice on the same player or item,
   and every removal removes observations actually registered.
   */
  lemma {:induction false} RunPreservesValid(c: Controller, events: seq<Event>)
    requires Valid(c) && Run(c, events).Some?
    ensures Valid(Run(c, events).value.next)
    decreases |events|
  {
    if events != [] {
      var first := Handle(c, events[0]).value;
      HandlePreservesValid(c, events[0]);
      RunPreservesValid(first.next, events[1..]);
    }
  }

  /** Events of the view and of the player's own state issue nothing and leave the indicator alone. */
  lemma HandleQuietOnIndicator(c: Controller, e: Event)
    requires Handle(c, e).Some?
    requires !e.ShowPlayer? && !e.MainQueue? && !e.Notify? && !e.FocusEnded? && !e.DefocusStarts?
    ensures Handle(c, e).value.commands == []
    ensures Handle(c, e).value.next.indicator == c.indicator
  {
  }

  /** Every event's commands tell the truth about the indicator. */
  lemma HandleLogsIndicator(c: Controller, e: Event)
    requires Handle(c, e).Some?
    ensures IsAnimating(Handle(c, e).value.next)
         == AnimatingAfter(IsAnimating(c), Handle(c, e).value.commands)
  {
    AnimatingAfterShortLists(IsAnimating(c));
    if e.MainQueue? {
      if c.pending != [] {
        assert RunDeferred(c).commands == [Pause] + StartIndicatorIfAny(c).commands;
      }
    } else if e.Notify? {
      ObserveValueLogsIndicator(c, e.keyPath);
    } else if e.FocusEnded? {
      FocusDidEndLogsIndicator(c, e.zoomEnabled, e.laidOut);
    } else if !e.ShowPlayer? && !e.DefocusStarts? {
      HandleQuietOnIndicator(c, e);
    }
  }

  /**
   After any run the loading indicator animates exactly when the last
   indicator command issued started it (or, with none issued, exactly when it
   animated at the start).
   */
  lemma {:induction false} RunLogsIndicator(c: Controller, events: seq<Event>)
    requires Run(c, events).Some?
    ensures IsAnimating(Run(c, events).value.next)
         == AnimatingAfter(IsAnimating(c), Run(c, events).value.commands)
    decreases |events|
  {
    if events != [] {
      var first := Handle(c, events[0]).value;
      var rest := Run(first.next, events[1..]).value;
      HandleLogsIndicator(c, events[0]);
      RunLogsIndicator(first.next, events[1..]);
      AnimatingAfterAppend(IsAnimating(c), first.commands, rest.commands);
    }
  }

  /** Once pinned, the overlay stays pinned: no event re-parents it back. */
  lemma {:induction false} RunKeepsPinned(c: Controller, events: seq<Event>)
    requires IsAccessoryViewPinned(c) && Run(c, events).Some?
    ensures IsAccessoryViewPinned(Run(c, events).value.next)
    decreases |events|
  {
    if events != [] {
      var first := Handle(c, events[0]).value;
      assert IsAccessoryViewPinned(first.next);
      RunKeepsPinned(first.next, events[1..]);
    }
  }

  /**
   Attaching a remote video and receiving, in turn, the initial status
   notification, a ready status, an empty buffer and a keep-up estimate:
   the indicator starts, the unready player is paused, readiness stops the
   indicator and plays, the empty buffer only restarts the indicator (no
   pause), and keeping up stops it and plays again.
   */
  lemma RemoteVideoScenario(path: string)
    ensures var s1 := ShowPlayerWithUrl(Initial(true), Url(path, false));
      && s1.commands == [StartIndicator]
      && var s2 := RunDeferred(s1.next);
      && s2.commands == [Pause, StartIndicator]
      && s2.next.player.Some?
      && var s4 := ObserveValue(ChangePlayer(s2.next, NewStatus(ReadyToPlay)), Some(Status));
      && s4.commands == [StopIndicator, Play]
      && var s5 := ObserveValue(s4.next, Some(PlayerHasEmptyBuffer));
      && s5.commands == [StartIndicator]
      && var s7 := ObserveValue(ChangePlayer(s5.next, NewKeepUp(true)), Some(PlayerKeepUp));
      && s7.commands == [StopIndicator, Play]
      && !IsAnimating(s7.next)
  {
  }

  /**
   Focusing with zoom enabled before any media is attached installs the zoom
   view and shows the overlay, but schedules no auto-hide timer, so the
   overlay stays visible.
   */
  lemma FocusWithoutPlayerNeverAutoHides(laidOut: ScrollView)
    ensures
      var s := FocusDidEnd(Initial(true), true, laidOut);
      && s.next.scroll.zoomView && Visible(s.next.accessory)
      && s.next.timers.live == {} && s.commands == []
  {
  }
}
